=== FILE: README.md ===
# WordCounter MapReduce engine — a Dafny model

The WordCounter library is a small MapReduce engine in C. It comes in two
variants: `single_mapreduce.c` runs everything on one thread, and
`multi_mapreduce.c` runs mapper and reducer threads.

1. The user's mapper calls `MR_Emit(key, value)` for every word.
2. The user's partitioner picks a partition id for the key.
3. The key is counted in that partition's unbalanced binary search tree,
   which is ordered by `strcmp` and holds one node per distinct key with a
   count. Each partition also caches a pointer to its most frequent node
   (`freq`). Inserting the key that node holds takes a shortcut with no
   search.
4. Each present partition is drained in ascending key order. The drain puts
   a cursor (`smallest`) on the leftmost node. `call_reduce` then hands the
   cursor's key to the user's reducer, which pulls occurrences through
   `get_next` until `get_next` returns NULL. Each pull decrements the node's
   count. A node whose count reaches zero is unlinked, and the cursor moves
   to the next smallest node.
5. The multi-threaded run splits the work statically. The files of the input
   directory go to mappers, and the present partition ids go to reducers.
   Both are split into contiguous runs of at most `n / workers + 1` items.

The model is written with immutable values:

- A tree is a `Tree` datatype.
- A partition is its tree, the key of its `freq` node and an optional cursor
  key. A pointer to a node is modelled by the node's key, since keys are
  distinct in a strict search tree.
- The table is a sequence of optional partitions.
- The user's partitioner is a function parameter.

A tree is measured against two abstractions:

- `Bag`: the multiset of emitted occurrences.
- `InOrder`: the sequence of (key, count) entries in symmetric order. This
  is the reference definition of what a drain delivers.

Every operation is proved against one of these abstractions or against a
declared invariant. The search-tree order, positive counts and maximal `freq`
together make up `Mapping`. The cursor on the leftmost node makes up
`Draining`.

Files:

| file | contents |
|---|---|
| `wrappers.dfy` | `Option` |
| `keyorder.dfy` | the sign of `strcmp` and the strict total order it induces |
| `tree.dfy` | the counting tree: `create_node`, the insertion walk, the `freq` shortcut, the unlink step of `get_next`, the leftmost descent |
| `partition.dfy` | `insert_node`, `get_next`, the drain set-up |
| `table.dfy` | `MR_Emit` and a whole map phase |
| `reduce.dfy` | `call_reduce`, the drain loops of both engines, and an end-to-end property |
| `schedule.dfy` | the counting loops and the static work split of the multi-threaded `MR_Run` |

## Model

| member | source | states |
|---|---|---|
| KeyOrder.StrCmp | single_mapreduce.c:71-85 | The comparison is zero exactly when the two keys are equal, and otherwise is -1 or 1. |
| KeyOrder.LessTrichotomy | single_mapreduce.c:80-85 | Of two keys, exactly one is below the other unless they are equal. So the walk's "greater goes left, otherwise right" always picks a side. |
| KeyOrder.LessTransitive | single_mapreduce.c:80-85 | The `strcmp` order is transitive, which is what makes the tree a search tree. |
| CountTree.Leaf | single_mapreduce.c:28-40 | A created node is a valid one-node tree that holds exactly one occurrence of its key. |
| CountTree.Bump | single_mapreduce.c:65-92 | The insertion walk adds exactly one occurrence of the key to the tree's contents. The walk ends on a node holding the key, which exists afterwards. |
| CountTree.BumpValid | single_mapreduce.c:69-92 | The walk keeps the tree a strict search tree with positive counts. |
| CountTree.BumpNodes | single_mapreduce.c:88-92 | The walk adds a node exactly when the key is new, and adds nothing when the key is already in the tree. |
| CountTree.LookupIsCount | single_mapreduce.c:69-77 | On a search tree, searching for a key finds the number of its occurrences, or 0 when it is absent. |
| CountTree.IncrementNode | single_mapreduce.c:59-63 | Bumping the node held through a pointer raises that key's count by one and leaves every other node as it was. |
| CountTree.IncrementAbsent | single_mapreduce.c:59-63 | Bumping through a pointer to a key that is not in the tree changes nothing. |
| CountTree.ShortcutAgreesWithWalk | multi_mapreduce.c:79-99 | On a search tree holding the key, the `freq` shortcut gives the same tree as the full insertion walk would. |
| CountTree.Leftmost | single_mapreduce.c:122-127 | Following left links finds no node only in an empty tree, and otherwise finds a node of the tree. |
| CountTree.LeftmostIsMinimum | single_mapreduce.c:186-191 | In a search tree, the leftmost node of a non-empty tree holds the smallest key. |
| CountTree.LeftmostIsFirst | multi_mapreduce.c:192-196 | The leftmost node is the first entry of the symmetric order. |
| CountTree.FindSmallest | single_mapreduce.c:186-191 | The descent loop stops on the leftmost node, and in a search tree that node holds the smallest key. |
| CountTree.Consume | single_mapreduce.c:102-128 | Consuming one occurrence at the cursor removes one occurrence of the first entry, or removes the entry when its count reaches zero. The rest of the symmetric order is unchanged. The re-seated cursor is the new tree's leftmost node, NULL when the tree is now empty. |
| CountTree.ConsumeBelow | single_mapreduce.c:113-127 | Unlinking below a parent replaces the parent's left link by the removed node's right child and keeps the parent. The re-descent from the parent lands on the global leftmost node. |
| CountTree.ConsumeBelowOrdered | single_mapreduce.c:113-117 | Relinking the parent's left link to the removed node's right child keeps the search-tree order and brings in no key. |
| CountTree.ConsumeValid | single_mapreduce.c:102-127 | A consume step keeps the tree valid, adds no key, and removes exactly one occurrence of the smallest key. |
| CountTree.ConsumeBag | multi_mapreduce.c:126-152 | A consume step removes exactly one occurrence of the smallest key from the contents. |
| CountTree.BagKeys | single_mapreduce.c:105-106 | A key that is not a node has no occurrences. Because nodes are removed at count zero, every node's key has at least one occurrence. |
| CountTree.InOrderKeys | single_mapreduce.c:184-195 | The drain order lists exactly the keys of the tree. |
| CountTree.InOrderAscending | single_mapreduce.c:189-195 | In a search tree, the drain order is strictly ascending by `strcmp`. |
| CountTree.BagOfInOrder | multi_mapreduce.c:190-201 | Replaying the drain order's (key, count) entries gives back exactly the tree's occurrences. |
| CountTree.PositiveInOrder | single_mapreduce.c:104-106 | Every node has a positive count exactly when every entry of the drain order does. |
| Partition.Insert | single_mapreduce.c:42-93 | An absent slot gets a one-node partition whose root is also `freq`, with no cursor. Otherwise, as long as the tree is a search tree and `freq` names one of its nodes, whatever that node's count, the key gains exactly one occurrence and every other count is unchanged, whichever path was taken. `freq` still names a node, either the old one or the inserted key's. When the walk finds the key's node and its new count beats `freq`'s, `freq` moves to it. The cursor is not touched. |
| Partition.InsertMapping | multi_mapreduce.c:59-117 | Insertion keeps a partition a strict search tree with positive counts whose `freq` node has a count at least every other count. A present key adds no node and a new key adds one. |
| Partition.GetNext | single_mapreduce.c:95-133 | Without a cursor, or for a key other than the cursor's, NULL comes back and nothing changes, whatever the tree holds, including a non-empty partition whose drain has not started. Otherwise the key comes back, and one occurrence of it is removed. The symmetric order loses one from its first count, or loses its first entry. The cursor moves to the new smallest key, or to NULL exactly when the tree is empty. `freq` is untouched. |
| Partition.StartDrain | multi_mapreduce.c:192-196 | The reducer set-up puts the cursor on the smallest key of a non-empty partition and changes nothing else. |
| Reduce.CallReduce | single_mapreduce.c:135-145 | A reducer that pulls until NULL receives the cursor's key exactly as many times as it was counted. Afterwards that key has no occurrences left, its entry is gone from the front of the symmetric order, and the cursor is on the next smallest key. |
| Reduce.PulledAll | multi_mapreduce.c:172-182 | Dropping the first entry of the symmetric order removes every occurrence of the smallest key and no other. |
| Reduce.DrainPartition | single_mapreduce.c:186-196 | The single-threaded drain delivers the partition's entries in symmetric order: strictly ascending keys, each once, with counts that add up to the partition's contents. The partition ends empty with a NULL cursor. |
| Reduce.DrainByRoot | multi_mapreduce.c:191-203 | The multi-threaded drain, which loops while the root is not NULL, delivers the same as the single-threaded drain and ends with an empty partition. |
| Reduce.ReducePartition | multi_mapreduce.c:184-207 | A reducer task drains each of its partitions in turn. Partition `ids[i]` delivers its entries ascending, each once, with its exact contents. |
| Reduce.ReduceAll | single_mapreduce.c:184-198 | The single-threaded reduce phase drains every present slot in id order with exact contents and ascending keys. An absent slot delivers nothing. |
| Reduce.EmittedKeysAreDelivered | single_mapreduce.c:147-198 | After a map phase into a fresh table, a present slot is drained in ascending key order. Each key is delivered exactly as many times as it was emitted when the partitioner sends it to that slot, and not at all otherwise. |
| Table.Emit | single_mapreduce.c:147-156 | `MR_Emit` adds one occurrence of the key to the slot the partitioner picks, makes that slot present, and leaves every other slot unchanged. |
| Table.EmitAll | multi_mapreduce.c:159-170 | A map phase, here a mapper's task and in the single-threaded engine the loop over the directory at single_mapreduce.c:171-180, keeps the table's length and leaves every present slot a well-formed partition: an ordered tree of positive counts whose `freq` marks a most frequent key. |
| Table.EmitAllCounts | multi_mapreduce.c:209-216 | After any sequence of emissions, a slot's count of a key has grown by the number of times that key was emitted if the partitioner sends it there, and not at all otherwise. |
| Table.EmitAllPresence | multi_mapreduce.c:63-76 | After a map phase, a slot is present exactly when it was present before or some emitted key was routed to it. |
| Table.EmitOrderIrrelevant | multi_mapreduce.c:286-294 | Two map phases that emit the same keys the same number of times leave every slot with the same contents, in whatever order and whatever split among mappers the keys come. |
| Schedule.CountPartitions | multi_mapreduce.c:296-302 | The counting loop finds the number of present slots. |
| Schedule.PresentIdsSpec | multi_mapreduce.c:298-301 | The present ids are strictly increasing, and an id is among them exactly when its slot is present. |
| Schedule.CountFiles | multi_mapreduce.c:244-255 | The first directory pass counts the names other than `.` and `..`. |
| Schedule.EntriesSpec | single_mapreduce.c:171-173 | A name is mapped exactly when it is in the listing and is not `.` or `..`. |
| Schedule.PathsLength | single_mapreduce.c:174-176 | Each mapped entry gets one path, `dir + "/" + name`, in listing order. |
| Schedule.FillReduceTask | multi_mapreduce.c:307-316 | One reducer's scan takes the next present ids in table order. It stops after `cap` ids, or earlier only when the table ends, and then steps past the id it stopped on. |
| Schedule.ReduceRounds | multi_mapreduce.c:305-317 | Reducer `i` continues the scan where reducer `i-1` stopped. Every task holds at most `cap` ids, and while the scan has not passed the table's end every task is full. |
| Schedule.ReduceSplitCovers | multi_mapreduce.c:308-312 | With tasks of `n / workers + 1` ids, the scan always runs past the end of the table. |
| Schedule.ReduceTasks | multi_mapreduce.c:304-317 | There is one reducer task per reducer. With no reducers the loop and its division never run, and there are no tasks. With at least one reducer, each task holds at most `n / num_reducers + 1` ids, and laid end to end the tasks are exactly the present ids in ascending order. |
| Schedule.ReducerAssignment | multi_mapreduce.c:309-313 | Every id in a task is present, every present id is in some task, no id is in two tasks, and each task is ascending. |
| Schedule.ReadMapTask | multi_mapreduce.c:264-274 | One mapper keeps reading the directory stream from where the previous one stopped, skipping `.` and `..`. It takes `cap` paths, or fewer only when the stream runs out. |
| Schedule.MapRounds | multi_mapreduce.c:260-276 | Mapper `i` continues the stream where mapper `i-1` stopped. Each task holds at most `cap` paths, and while the stream is not exhausted every task is full. |
| Schedule.MapSplitCovers | multi_mapreduce.c:262-273 | With tasks of `n / workers + 1` paths, the stream is always exhausted by the last mapper. |
| Schedule.MapTasks | multi_mapreduce.c:257-278 | There is one mapper task per mapper. With no mappers the loop and its division never run, and there are no tasks. With at least one mapper, each task holds at most `n / num_mappers + 1` paths, and laid end to end the tasks are exactly the paths of the directory's entries in listing order, so every file is mapped once. |

## Left out

- Threads, `pthread_mutex` locks and `atomic_fetch_add` are not modelled. One emission is an atomic step, `Partition.Insert`, which is both engines' `insert_node` with the locking erased. The multi-threaded shortcut reads `freq` outside the lock, which is a data race; that is not modelled. It can leave `freq` on a node below the maximum, which `Partition.Insert` allows: its counting contract asks only that `freq` names a node of the tree. `Table.EmitOrderIrrelevant` covers the claim that any interleaving of whole emissions gives the same counts.
- `opendir`, `readdir` and `closedir` are not modelled. The directory is a sequence of names with `.` and `..` included, and a failed `opendir` is an empty listing. That holds for single_mapreduce.c:169-170 and for the counting pass at multi_mapreduce.c:246-247. The two passes of the multi-threaded run are assumed to see the same listing.
- The user's `map`, `reduce` and `partition` functions are left out: the keys a map phase emits are a parameter, and so is the partitioner. The reducer is modelled as the word-count protocol, which pulls through `get_next` until NULL. `map_partition` (multi_mapreduce.c:159-170) only calls the user's mapper on each path of its task, so it is covered by `Schedule.MapTasks` together with `Table.EmitAll`.
- `Table.Emit` requires the partitioner to return an id below the number of partitions. The C code indexes the table unchecked, which is undefined behaviour.
- The partition table comes from `malloc` without zeroing, yet slots are compared with NULL. The model starts every run from all-absent slots (`Table.Empty`), as the code evidently intends.
- `malloc`, `free`, `strcpy` and the `file_name[1000]` buffer are not modelled. Paths longer than the buffer overflow it in C, while the model's paths are unbounded.
- `atoi` on `argv[2]` is not modelled. The partition count is the table's length.
- The emitted value argument is ignored by both engines and is not modelled.
- Node counts are C `int`s. The model uses unbounded naturals, so counts beyond `INT_MAX` occurrences of one key are out of scope.
- Keys are `seq<char>`, compared by code point, which stands for `strcmp`'s unsigned byte order. Embedded NUL bytes do not arise in C strings and are not excluded here.
- The chunk size follows the code, `n / workers + 1`, and not a ceiling division. With at least one worker the tasks are still proved to cover everything, and the trailing tasks may be short or empty: with 4 present ids and 4 reducers the cap is 2, so the tasks hold 2, 2, 0 and 0 ids. With no workers there are no tasks, so no file is mapped and no partition is reduced.
- Worker counts are the `int` parameters `num_mappers` and `num_reducers` of `MR_Run`. A negative count makes the task loops run zero times, exactly like zero, so the model takes worker counts as naturals and treats a negative count as 0.
- A failed second `opendir` in the multi-threaded run (multi_mapreduce.c:258) leaves the `map_tasks` from the unzeroed `malloc` at multi_mapreduce.c:237 uninitialised, and `map_partition` then reads them (multi_mapreduce.c:161-167). That is undefined behaviour and is not modelled; the model assumes the second pass sees the same listing as the first.

=== FILE: keyorder.dfy ===
/**
 * Keys and their order.  A key is the C string a mapper emits; each `char`
 * stands for one byte of it.  Every comparison in the engine is a call to
 * `strcmp`, of which only the sign is ever inspected, so the order is the
 * byte-wise lexicographic one in which a proper prefix sorts first.
 */
module KeyOrder {

  type Key = seq<char>

  /** The sign of `strcmp(a, b)`: -1, 0 or 1. */
  function StrCmp(a: Key, b: Key): (r: int)
    ensures r == 0 <==> a == b
    ensures r == -1 || r == 0 || r == 1
  {
    if |a| == 0 then (if |b| == 0 then 0 else -1)
    else if |b| == 0 then 1
    else if a[0] < b[0] then -1
    else if a[0] > b[0] then 1
    else
      assert a == [a[0]] + a[1..] && b == [b[0]] + b[1..];
      StrCmp(a[1..], b[1..])
  }

  /** `strcmp(a, b) < 0`. */
  predicate Less(a: Key, b: Key) {
    StrCmp(a, b) < 0
  }

  /** Swapping the arguments of `strcmp` flips its sign. */
  lemma {:induction false} StrCmpAntisymmetric(a: Key, b: Key)
    ensures StrCmp(b, a) == -StrCmp(a, b)
  {
    if |a| > 0 && |b| > 0 && a[0] == b[0] {
      StrCmpAntisymmetric(a[1..], b[1..]);
    }
  }

  /** Exactly one of `a < b`, `a == b`, `b < a` holds. */
  lemma LessTrichotomy(a: Key, b: Key)
    ensures Less(a, b) || a == b || Less(b, a)
    ensures !(Less(a, b) && Less(b, a))
    ensures !Less(a, a)
  {
    StrCmpAntisymmetric(a, b);
  }

  lemma {:induction false} LessTransitive(a: Key, b: Key, c: Key)
    requires Less(a, b) && Less(b, c)
    ensures Less(a, c)
  {
    if |a| > 0 && a[0] == b[0] && b[0] == c[0] {
      LessTransitive(a[1..], b[1..], c[1..]);
    }
  }
}

=== FILE: partition.dfy ===
/**
 * One partition of the store: its counting tree, the cached most frequent
 * node (`freq`) that gives insertion a shortcut, and the reduce cursor
 * (`smallest`).  Pointers to nodes are modelled by the nodes' keys, which are
 * distinct in a strict search tree; a NULL cursor is `None`.  The
 * multi-threaded engine runs `insert_node` under a per-partition lock (with
 * an atomic add on the shortcut) and `get_next` unlocked, during the reduce
 * phase in which each partition has a single owner; with the locks erased
 * they are the functions below.
 */
module Partition {
  import opened Wrappers
  import opened KeyOrder
  import opened CountTree

  datatype Partition = Partition(root: Tree, freq: Key, cursor: Option<Key>)

  /** `freq` names a node whose count is at least every count in the tree. */
  ghost predicate FreqIsMax(p: Partition) {
    && p.freq in KeySet(p.root)
    && forall y :: Bag(p.root)[y] <= Bag(p.root)[p.freq]
  }

  /** What holds of a partition between two emissions. */
  ghost predicate Mapping(p: Partition) {
    Valid(p.root) && p.root.Node? && FreqIsMax(p)
  }

  /** What holds of a partition while it is drained: the cursor is on the leftmost node, NULL once empty. */
  predicate Draining(p: Partition) {
    Valid(p.root) && p.cursor == Leftmost(p.root)
  }

  /**
   * `insert_node` on one table slot.  An absent slot gets a partition whose
   * single node is both root and `freq`, with no cursor.  Otherwise a key
   * equal to `freq`'s takes the shortcut and bumps that node in place; any
   * other key walks the tree, and when it finds its node and that node's
   * count now exceeds `freq`'s, `freq` moves to it.  Either way the key's
   * count grows by one and no other count changes.  Counting needs only
   * that `freq` names a node of the tree: whether that node really has the
   * largest count matters to the shortcut's speed, not to the result.
   */
  function Insert(slot: Option<Partition>, k: Key): (p: Partition)
    requires slot.Some? ==> Ordered(slot.value.root) && slot.value.freq in KeySet(slot.value.root)
    ensures Bag(p.root) == (if slot.None? then multiset{} else Bag(slot.value.root)) + multiset{k}
    ensures slot.None? ==> p.root == Leaf(k) && p.freq == k && p.cursor.None?
    ensures slot.Some? ==> p.cursor == slot.value.cursor
    ensures slot.Some? ==> p.freq in KeySet(p.root) && (p.freq == slot.value.freq || p.freq == k)
    ensures slot.Some? && k in KeySet(slot.value.root) && Lookup(p.root, k) > Lookup(p.root, slot.value.freq) ==>
      p.freq == k
  {
    match slot
    case None => Partition(Leaf(k), k, None)
    case Some(q) =>
      if StrCmp(q.freq, k) == 0 then
        ShortcutAgreesWithWalk(q.root, q.freq);
        q.(root := IncrementNode(q.root, q.freq))
      else
        var root := Bump(q.root, k);
        if k in KeySet(q.root) && Lookup(root, k) > Lookup(root, q.freq) then q.(root := root, freq := k)
        else q.(root := root)
  }

  /**
   * Inserting into a well-formed partition (or an absent slot) keeps it
   * well-formed: still a strict search tree of positive counts whose `freq`
   * has the maximum count; a key already present adds no node and a new key
   * adds exactly one.
   */
  lemma InsertMapping(slot: Option<Partition>, k: Key)
    requires slot.Some? ==> Mapping(slot.value)
    ensures Mapping(Insert(slot, k))
    ensures slot.Some? ==>
      |InOrder(Insert(slot, k).root)| == |InOrder(slot.value.root)| + (if k in KeySet(slot.value.root) then 0 else 1)
  {
    if slot.Some? {
      var q := slot.value;
      var p := Insert(slot, k);
      if StrCmp(q.freq, k) == 0 {
        ShortcutAgreesWithWalk(q.root, q.freq);
      }
      var b, b' := Bag(q.root), Bag(p.root);
      BumpValid(q.root, k);
      BumpNodes(q.root, k);
      assert b' == b + multiset{k};
      BagKeys(q.root, q.freq);
      if StrCmp(q.freq, k) != 0 {
        var root := Bump(q.root, k);
        LookupIsCount(q.root, k);
        assert k in KeySet(q.root) <==> Lookup(q.root, k) > 0 by { BagKeys(q.root, k); }
        LookupIsCount(root, k);
        LookupIsCount(root, q.freq);
        if Lookup(q.root, k) == 0 {
          BagKeys(q.root, k);
          assert b'[k] == 1;
        }
      }
    }
  }

  /**
   * `get_next(key, partition)`.  With no cursor, or a key other than the
   * cursor's, it reports NULL and changes nothing.  Otherwise it consumes one
   * occurrence of the cursor's key, unlinking the node when its count reaches
   * zero and moving the cursor to the new leftmost node, and returns the key.
   */
  function GetNext(p: Partition, key: Key): (r: (Partition, Option<Key>))
    requires p.cursor == Some(key) ==> Draining(p)
    ensures p.cursor != Some(key) ==> r == (p, None)
    ensures p.cursor == Some(key) ==>
      && r.1 == Some(key)
      && Draining(r.0)
      && r.0.freq == p.freq
      && Bag(r.0.root) == Bag(p.root) - multiset{key}
      && KeySet(r.0.root) <= KeySet(p.root)
      && InOrder(r.0.root) == Decrement(InOrder(p.root)[0]) + InOrder(p.root)[1..]
      && (r.0.cursor.None? <==> r.0.root.Nil?)
      && (r.0.cursor.Some? ==>
            forall y :: y in KeySet(r.0.root) ==> y == r.0.cursor.value || Less(r.0.cursor.value, y))
  {
    match p.cursor
    case None => (p, None)
    case Some(c) =>
      if StrCmp(c, key) == 0 then
        ConsumeValid(p.root);
        var (root, cursor) := Consume(p.root);
        LeftmostIsMinimum(root);
        (p.(root := root, cursor := cursor), Some(key))
      else (p, None)
  }

  /** The reducer's set-up: put the cursor on the leftmost node of a non-empty partition. */
  method StartDrain(p: Partition) returns (q: Partition)
    requires Valid(p.root) && p.root.Node?
    ensures Draining(q) && q.cursor.Some?
    ensures q.root == p.root && q.freq == p.freq
    ensures forall y :: y in KeySet(q.root) ==> y == q.cursor.value || Less(q.cursor.value, y)
  {
    var k := FindSmallest(p.root);
    q := p.(cursor := Some(k));
  }
}

=== FILE: reduce.dfy ===
/**
 * The reduce side: the destructive, ordered drain of a partition.  The
 * user's reducer is modelled as the word-count reducer's protocol: it pulls
 * occurrences of the key it was given through `get_next` until `get_next`
 * reports NULL.  What one `call_reduce` delivers is recorded as an `Entry`:
 * the key and the number of occurrences the reducer pulled for it.
 */
module Reduce {
  import opened KeyOrder
  import opened CountTree
  import opened Partition
  import opened Table

  /**
   * `call_reduce`: copy the cursor's key and hand it to the reducer, which
   * pulls until NULL.  It pulls exactly the count of the smallest key, and
   * that key's node is gone afterwards, the cursor on the next smallest.
   */
  method CallReduce(p: Partition) returns (q: Partition, delivered: Entry)
    requires Draining(p) && p.cursor.Some?
    ensures Draining(q)
    ensures [delivered] + InOrder(q.root) == InOrder(p.root)
    ensures delivered.key == p.cursor.value && delivered.count == Bag(p.root)[delivered.key]
    ensures Bag(q.root) == Bag(p.root)[delivered.key := 0]
  {
    var key := p.cursor.value;
    ghost var s := InOrder(p.root);
    LeftmostIsFirst(p.root);
    InOrderAscending(p.root);
    PositiveInOrder(p.root);
    ghost var c := s[0].count;
    assert s[0].key == key && c >= 1;
    assert s == [s[0]] + s[1..];
    var pulls := 0;
    q := p;
    while true
      invariant Draining(q)
      invariant 0 <= pulls <= c
      invariant InOrder(q.root) == (if pulls < c then [Entry(key, c - pulls)] else []) + s[1..]
      decreases c - pulls
    {
      LeftmostIsFirst(q.root);
      if pulls == c && |s| > 1 {
        assert s[1].key != key by {
          LessTrichotomy(s[0].key, s[1].key);
        }
      }
      var (next, r) := GetNext(q, key);
      if r.None? {
        break;
      }
      q, pulls := next, pulls + 1;
    }
    assert pulls == c;
    delivered := Entry(key, pulls);
    PulledAll(p.root, q.root);
  }

  /** Bag bookkeeping for `CallReduce`: dropping the first node removes all of its key's occurrences. */
  lemma PulledAll(t: Tree, t': Tree)
    requires Valid(t) && t.Node? && InOrder(t') == InOrder(t)[1..]
    ensures Bag(t)[InOrder(t)[0].key] == InOrder(t)[0].count
    ensures Bag(t') == Bag(t)[InOrder(t)[0].key := 0]
  {
    var s := InOrder(t);
    var key := s[0].key;
    assert Bag(t')[key] == 0 by {
      InOrderAscending(t);
      AscendingHeadAbsent(s);
      InOrderKeys(t');
      BagKeys(t', key);
    }
    assert s == [s[0]] + s[1..];
    BagOfInOrder(t);
    BagOfInOrder(t');
    BagOfConcat([s[0]], s[1..]);
    assert BagOf([s[0]]) == multiset{}[key := s[0].count];
  }

  /** In an ascending sequence the first key does not occur again. */
  lemma AscendingHeadAbsent(s: seq<Entry>)
    requires Ascending(s) && |s| > 0
    ensures s[0].key !in Keys(s[1..])
  {
  }

  /**
   * The reduce loop of the single-threaded run for one present partition:
   * put the cursor on the leftmost node, then call the reducer while the
   * cursor is not NULL.  The reducer sees the keys in strictly ascending
   * order, each exactly as many times as it was counted, and the partition
   * ends empty.
   */
  method DrainPartition(p: Partition) returns (out: seq<Entry>, drained: Partition)
    requires Valid(p.root) && p.root.Node?
    ensures out == InOrder(p.root)
    ensures Ascending(out) && BagOf(out) == Bag(p.root)
    ensures drained.root.Nil? && drained.cursor.None?
  {
    drained := StartDrain(p);
    out := [];
    while drained.cursor.Some?
      invariant Draining(drained)
      invariant out + InOrder(drained.root) == InOrder(p.root)
      decreases |InOrder(drained.root)|
    {
      var e;
      drained, e := CallReduce(drained);
      out := out + [e];
    }
    InOrderAscending(p.root);
    BagOfInOrder(p.root);
  }

  /**
   * One partition of `reduce_partition`: put the cursor on the leftmost node,
   * then call the reducer while the root is not NULL.  The guard differs
   * from the single-threaded run's, which tests the cursor; on a draining
   * partition the two agree.
   */
  method DrainByRoot(p: Partition) returns (out: seq<Entry>, drained: Partition)
    requires Valid(p.root) && p.root.Node?
    ensures out == InOrder(p.root)
    ensures Ascending(out) && BagOf(out) == Bag(p.root)
    ensures drained.root.Nil? && drained.cursor.None?
  {
    drained := StartDrain(p);
    out := [];
    while drained.root.Node?
      invariant Draining(drained)
      invariant out + InOrder(drained.root) == InOrder(p.root)
      decreases |InOrder(drained.root)|
    {
      var e;
      drained, e := CallReduce(drained);
      out := out + [e];
    }
    InOrderAscending(p.root);
    BagOfInOrder(p.root);
  }

  /**
   * `reduce_partition`: drain each partition id of the task in turn.
   * Partition `ids[i]` delivers its nodes in order, exactly once each.
   */
  method ReducePartition(table: Table, ids: seq<nat>) returns (outs: seq<seq<Entry>>)
    requires forall i :: 0 <= i < |ids| ==>
      ids[i] < |table| && table[ids[i]].Some? && Valid(table[ids[i]].value.root) && table[ids[i]].value.root.Node?
    ensures |outs| == |ids|
    ensures forall i :: 0 <= i < |ids| ==> outs[i] == InOrder(table[ids[i]].value.root)
    ensures forall i :: 0 <= i < |ids| ==>
      Ascending(outs[i]) && BagOf(outs[i]) == SlotBag(table, ids[i])
  {
    outs := [];
    var i := 0;
    while i < |ids|
      invariant i <= |ids| && |outs| == i
      invariant forall m :: 0 <= m < i ==> outs[m] == InOrder(table[ids[m]].value.root)
    {
      var out, drained := DrainByRoot(table[ids[i]].value);
      var prev := outs;
      outs := outs + [out];
      assert forall m :: 0 <= m < i ==> outs[m] == prev[m];
      i := i + 1;
    }
    forall m | 0 <= m < |ids|
      ensures Ascending(outs[m]) && BagOf(outs[m]) == SlotBag(table, ids[m])
    {
      InOrderAscending(table[ids[m]].value.root);
      BagOfInOrder(table[ids[m]].value.root);
    }
  }

  /**
   * The reduce loop of the single-threaded `MR_Run`: every present slot is
   * drained in id order; an absent slot delivers nothing.
   */
  method ReduceAll(table: Table) returns (outs: seq<seq<Entry>>)
    requires Mapped(table)
    ensures |outs| == |table|
    ensures forall i :: 0 <= i < |table| ==>
      outs[i] == (if table[i].Some? then InOrder(table[i].value.root) else [])
    ensures forall i :: 0 <= i < |table| ==> Ascending(outs[i]) && BagOf(outs[i]) == SlotBag(table, i)
  {
    outs := [];
    var i := 0;
    while i < |table|
      invariant i <= |table| && |outs| == i
      invariant forall m :: 0 <= m < i ==>
        outs[m] == (if table[m].Some? then InOrder(table[m].value.root) else [])
    {
      var out := [];
      if table[i].Some? {
        var drained;
        out, drained := DrainPartition(table[i].value);
      }
      var prev := outs;
      outs := outs + [out];
      assert forall m :: 0 <= m < i ==> outs[m] == prev[m];
      i := i + 1;
    }
    forall m | 0 <= m < |table|
      ensures Ascending(outs[m]) && BagOf(outs[m]) == SlotBag(table, m)
    {
      if table[m].Some? {
        InOrderAscending(table[m].value.root);
        BagOfInOrder(table[m].value.root);
      }
    }
  }

  /**
   * End to end: after a map phase that emits `keys` into a fresh table,
   * draining slot `p` delivers every key the partitioner sends to `p`, in
   * strictly ascending order, pulled exactly as many times as it was
   * emitted, and no key the partitioner sends elsewhere.
   */
  lemma EmittedKeysAreDelivered(n: nat, part: Partitioner, keys: seq<Key>, p: nat, y: Key)
    requires Routable(part, n, keys) && p < n
    ensures EmitAll(Empty(n), part, keys)[p].Some? ==>
      && Ascending(InOrder(EmitAll(Empty(n), part, keys)[p].value.root))
      && BagOf(InOrder(EmitAll(Empty(n), part, keys)[p].value.root))[y]
         == (if part(y, n) == p then multiset(keys)[y] else 0)
  {
    var table := EmitAll(Empty(n), part, keys);
    EmitAllCounts(Empty(n), part, keys, p, y);
    if table[p].Some? {
      InOrderAscending(table[p].value.root);
      BagOfInOrder(table[p].value.root);
    }
  }
}

=== FILE: schedule.dfy ===
/**
 * The static work split of the multi-threaded `MR_Run`.  Input files are
 * handed to mappers, and present partitions to reducers, in contiguous runs
 * of at most `n / workers + 1` items, where `n` is the number of items.  The
 * directory stream is modelled as the sequence of names `readdir` returns,
 * `.` and `..` included; once it is exhausted, reading it again yields
 * nothing.
 */
module Schedule {
  import opened Wrappers
  import opened KeyOrder

  /** The tasks' lists, one after another. */
  function Flatten<T>(tasks: seq<seq<T>>): seq<T> {
    if |tasks| == 0 then [] else Flatten(tasks[..|tasks| - 1]) + tasks[|tasks| - 1]
  }

  function Min(a: int, b: int): int {
    if a <= b then a else b
  }

  /** The ids of the present slots, ascending. */
  function PresentIds<T>(slots: seq<Option<T>>): seq<nat> {
    if |slots| == 0 then []
    else PresentIds(slots[..|slots| - 1]) + (if slots[|slots| - 1].Some? then [|slots| - 1] else [])
  }

  /** A directory entry the listing skips. */
  predicate IsDot(name: Key) {
    name == "." || name == ".."
  }

  /** The names in the listing other than `.` and `..`, in listing order. */
  function Entries(listing: seq<Key>): seq<Key> {
    if |listing| == 0 then []
    else Entries(listing[..|listing| - 1]) + (if IsDot(listing[|listing| - 1]) then [] else [listing[|listing| - 1]])
  }

  /** The path handed to the mapper for one entry of the directory. */
  function JoinPath(dir: Key, name: Key): Key {
    dir + "/" + name
  }

  /** The paths of a sequence of entries. */
  function Paths(dir: Key, names: seq<Key>): seq<Key> {
    if |names| == 0 then [] else Paths(dir, names[..|names| - 1]) + [JoinPath(dir, names[|names| - 1])]
  }

  // ---------------------------------------------------------------------------
  // Counting

  /** The loop that counts the present partitions after the map phase. */
  method CountPartitions<T>(slots: seq<Option<T>>) returns (n: nat)
    ensures n == |PresentIds(slots)|
    ensures n <= |slots|
  {
    n := 0;
    var i := 0;
    while i < |slots|
      invariant i <= |slots| && n == |PresentIds(slots[..i])| && n <= i
    {
      PresentIdsGrow(slots, i);
      if slots[i].Some? {
        n := n + 1;
      }
      i := i + 1;
    }
    assert slots[..|slots|] == slots;
  }

  /** The first pass over the directory, which counts the entries other than `.` and `..`. */
  method CountFiles(listing: seq<Key>) returns (n: nat)
    ensures n == |Entries(listing)|
    ensures n <= |listing|
  {
    n := 0;
    var pos := 0;
    while pos < |listing|
      invariant pos <= |listing| && n == |Entries(listing[..pos])| && n <= pos
    {
      EntriesGrow(listing, pos);
      if !IsDot(listing[pos]) {
        n := n + 1;
      }
      pos := pos + 1;
    }
    assert listing[..|listing|] == listing;
  }

  // ---------------------------------------------------------------------------
  // Splitting

  /**
   * One reducer's share (the inner `for` and the step after it): scan the
   * table from `j`, taking present ids until `cap` are taken or the table
   * ends, then step past the id the scan stopped on.
   */
  method FillReduceTask<T>(slots: seq<Option<T>>, j: nat, cap: nat) returns (task: seq<nat>, next: nat)
    requires cap > 0
    ensures next > j
    ensures PresentIds(slots[..Min(j, |slots|)]) + task == PresentIds(slots[..Min(next, |slots|)])
    ensures |task| <= cap
    ensures next <= |slots| ==> |task| == cap
  {
    task := [];
    next := j;
    while next < |slots|
      invariant j <= next
      invariant PresentIds(slots[..Min(j, |slots|)]) + task == PresentIds(slots[..Min(next, |slots|)])
      invariant |task| < cap
    {
      PresentIdsGrow(slots, next);
      if slots[next].Some? {
        task := task + [next];
        if |task| >= cap {
          break;
        }
      }
      next := next + 1;
    }
    next := next + 1;
  }

  /**
   * The outer reducer loop with the chunk size `cap` fixed: reducer `i` scans
   * the table from where reducer `i-1` stopped.  The scan position is `j`.
   */
  method ReduceRounds<T>(slots: seq<Option<T>>, numReducers: nat, cap: nat) returns (tasks: seq<seq<nat>>, j: nat)
    requires cap > 0
    ensures |tasks| == numReducers
    ensures Flatten(tasks) == PresentIds(slots[..Min(j, |slots|)])
    ensures forall m :: 0 <= m < |tasks| ==> |tasks[m]| <= cap
    ensures j <= |slots| ==> forall m :: 0 <= m < |tasks| ==> |tasks[m]| == cap
  {
    tasks := [];
    j := 0;
    var i := 0;
    while i < numReducers
      invariant 0 <= i <= numReducers && |tasks| == i
      invariant Flatten(tasks) == PresentIds(slots[..Min(j, |slots|)])
      invariant forall m :: 0 <= m < i ==> |tasks[m]| <= cap
      invariant j <= |slots| ==> forall m :: 0 <= m < i ==> |tasks[m]| == cap
    {
      var task;
      task, j := FillReduceTask(slots, j, cap);
      FlattenAppend(tasks, task);
      var prev := tasks;
      tasks := tasks + [task];
      assert forall m :: 0 <= m < i ==> tasks[m] == prev[m];
      i := i + 1;
    }
  }

  /**
   * The reducer split: reducer `i` scans the table from where reducer `i-1`
   * stopped and takes present ids until it holds `n / numReducers + 1` of
   * them.  With no reducers the loop, and the division inside it, never
   * runs: there are no tasks and no partition is reduced.
   */
  method ReduceTasks<T>(slots: seq<Option<T>>, numReducers: nat) returns (tasks: seq<seq<nat>>)
    ensures |tasks| == numReducers
    ensures numReducers > 0 ==> forall i :: 0 <= i < |tasks| ==> |tasks[i]| <= |PresentIds(slots)| / numReducers + 1
    ensures numReducers > 0 ==> Flatten(tasks) == PresentIds(slots)
    ensures numReducers == 0 ==> tasks == []
  {
    var n := CountPartitions(slots);
    if numReducers == 0 {
      return [];
    }
    var cap := n / numReducers + 1;
    var j;
    tasks, j := ReduceRounds(slots, numReducers, cap);
    ReduceSplitCovers(slots, tasks, j);
    assert slots[..|slots|] == slots;
  }

  /**
   * One mapper's share (the inner `while`): keep reading the directory
   * stream from `pos`, skipping `.` and `..`, until `cap` paths are taken or
   * the stream is exhausted.
   */
  method ReadMapTask(dir: Key, listing: seq<Key>, pos: nat, cap: nat) returns (task: seq<Key>, next: nat)
    requires pos <= |listing| && cap > 0
    ensures pos <= next <= |listing|
    ensures Paths(dir, Entries(listing[..pos])) + task == Paths(dir, Entries(listing[..next]))
    ensures |task| <= cap
    ensures next < |listing| ==> |task| == cap
  {
    task := [];
    next := pos;
    while next < |listing|
      invariant pos <= next <= |listing|
      invariant Paths(dir, Entries(listing[..pos])) + task == Paths(dir, Entries(listing[..next]))
      invariant |task| < cap
    {
      var entry := listing[next];
      ReadStep(dir, listing, next);
      next := next + 1;
      if IsDot(entry) {
        continue;
      }
      task := task + [JoinPath(dir, entry)];
      if |task| >= cap {
        break;
      }
    }
  }

  /**
   * The outer mapper loop with the chunk size `cap` fixed: mapper `i` reads
   * the stream from where mapper `i-1` stopped.  The stream position is `pos`.
   */
  method MapRounds(dir: Key, listing: seq<Key>, numMappers: nat, cap: nat) returns (tasks: seq<seq<Key>>, pos: nat)
    requires cap > 0
    ensures |tasks| == numMappers && pos <= |listing|
    ensures Flatten(tasks) == Paths(dir, Entries(listing[..pos]))
    ensures forall m :: 0 <= m < |tasks| ==> |tasks[m]| <= cap
    ensures pos < |listing| ==> forall m :: 0 <= m < |tasks| ==> |tasks[m]| == cap
  {
    tasks := [];
    pos := 0;
    var i := 0;
    while i < numMappers
      invariant 0 <= i <= numMappers && |tasks| == i
      invariant pos <= |listing|
      invariant Flatten(tasks) == Paths(dir, Entries(listing[..pos]))
      invariant forall m :: 0 <= m < i ==> |tasks[m]| <= cap
      invariant pos < |listing| ==> forall m :: 0 <= m < i ==> |tasks[m]| == cap
    {
      var task;
      task, pos := ReadMapTask(dir, listing, pos, cap);
      FlattenAppend(tasks, task);
      var prev := tasks;
      tasks := tasks + [task];
      assert forall m :: 0 <= m < i ==> tasks[m] == prev[m];
      i := i + 1;
    }
  }

  /**
   * The mapper split: mapper `i` keeps reading the directory stream where
   * mapper `i-1` stopped until it holds `n / numMappers + 1` paths or the
   * stream is exhausted.  With no mappers the loop, and the division inside
   * it, never runs: there are no tasks and no file is mapped.
   */
  method MapTasks(dir: Key, listing: seq<Key>, numMappers: nat) returns (tasks: seq<seq<Key>>)
    ensures |tasks| == numMappers
    ensures numMappers > 0 ==> forall i :: 0 <= i < |tasks| ==> |tasks[i]| <= |Entries(listing)| / numMappers + 1
    ensures numMappers > 0 ==> Flatten(tasks) == Paths(dir, Entries(listing))
    ensures numMappers == 0 ==> tasks == []
  {
    var n := CountFiles(listing);
    if numMappers == 0 {
      return [];
    }
    var cap := n / numMappers + 1;
    var pos;
    tasks, pos := MapRounds(dir, listing, numMappers, cap);
    MapSplitCovers(dir, listing, tasks, pos);
    assert listing[..|listing|] == listing;
  }

  // ---------------------------------------------------------------------------
  // Lemmas

  /** In an increasing concatenation, the front lies wholly below the back. */
  lemma ConcatIncreasing(f: seq<nat>, last: seq<nat>, x: nat, y: nat)
    requires Increasing(f + last) && x in f && y in last
    ensures x < y
  {
    var i :| 0 <= i < |f| && f[i] == x;
    var j :| 0 <= j < |last| && last[j] == y;
    assert (f + last)[i] == x && (f + last)[|f| + j] == y;
  }

  /**
   * The reducer tasks have room for every present id: if the scan stopped
   * inside the table, all tasks would be full and hold more ids than there
   * are.
   */
  lemma ReduceSplitCovers<T>(slots: seq<Option<T>>, tasks: seq<seq<nat>>, j: nat)
    requires |tasks| > 0
    requires Flatten(tasks) == PresentIds(slots[..Min(j, |slots|)])
    requires j <= |slots| ==>
      forall m :: 0 <= m < |tasks| ==> |tasks[m]| == |PresentIds(slots)| / |tasks| + 1
    ensures j > |slots|
  {
    if j <= |slots| {
      var cap := |PresentIds(slots)| / |tasks| + 1;
      FlattenFull(tasks, cap);
      CapacityExceeds(|PresentIds(slots)|, |tasks|);
      PresentIdsPrefix(slots, j);
    }
  }

  /**
   * The mapper tasks have room for every entry: if the stream were not
   * exhausted, all tasks would be full and hold more paths than there are.
   */
  lemma MapSplitCovers(dir: Key, listing: seq<Key>, tasks: seq<seq<Key>>, pos: nat)
    requires |tasks| > 0 && pos <= |listing|
    requires Flatten(tasks) == Paths(dir, Entries(listing[..pos]))
    requires pos < |listing| ==>
      forall m :: 0 <= m < |tasks| ==> |tasks[m]| == |Entries(listing)| / |tasks| + 1
    ensures pos == |listing|
  {
    if pos < |listing| {
      var cap := |Entries(listing)| / |tasks| + 1;
      FlattenFull(tasks, cap);
      CapacityExceeds(|Entries(listing)|, |tasks|);
      EntriesPrefix(listing, pos);
      PathsLength(dir, Entries(listing[..pos]));
    }
  }

  lemma FlattenAppend<T>(tasks: seq<seq<T>>, task: seq<T>)
    ensures Flatten(tasks + [task]) == Flatten(tasks) + task
  {
    assert (tasks + [task])[..|tasks|] == tasks;
  }

  /** Tasks that are all full hold `cap` items each. */
  lemma {:induction false} FlattenFull<T>(tasks: seq<seq<T>>, cap: nat)
    requires forall m :: 0 <= m < |tasks| ==> |tasks[m]| == cap
    ensures |Flatten(tasks)| == |tasks| * cap
  {
    if |tasks| > 0 {
      FlattenFull(tasks[..|tasks| - 1], cap);
    }
  }

  /** `workers` chunks of `n / workers + 1` items have room for all `n` items. */
  lemma CapacityExceeds(n: nat, workers: nat)
    requires workers > 0
    ensures workers * (n / workers + 1) > n
  {
    var q, r := n / workers, n % workers;
    assert n == workers * q + r;
    assert workers * (q + 1) == workers * q + workers;
  }

  lemma PresentIdsGrow<T>(slots: seq<Option<T>>, j: nat)
    requires j < |slots|
    ensures PresentIds(slots[..j + 1]) == PresentIds(slots[..j]) + (if slots[j].Some? then [j] else [])
  {
    assert slots[..j + 1][..j] == slots[..j];
  }

  lemma {:induction false} PresentIdsPrefix<T>(slots: seq<Option<T>>, j: nat)
    requires j <= |slots|
    ensures |PresentIds(slots[..j])| <= |PresentIds(slots)|
    decreases |slots| - j
  {
    if j == |slots| {
      assert slots[..j] == slots;
    } else {
      PresentIdsGrow(slots, j);
      PresentIdsPrefix(slots, j + 1);
    }
  }

  lemma EntriesGrow(listing: seq<Key>, pos: nat)
    requires pos < |listing|
    ensures Entries(listing[..pos + 1]) == Entries(listing[..pos]) + (if IsDot(listing[pos]) then [] else [listing[pos]])
  {
    assert listing[..pos + 1][..pos] == listing[..pos];
  }

  /** Reading one more name from the stream adds its path unless it is `.` or `..`. */
  lemma ReadStep(dir: Key, listing: seq<Key>, pos: nat)
    requires pos < |listing|
    ensures Paths(dir, Entries(listing[..pos + 1]))
         == Paths(dir, Entries(listing[..pos])) + (if IsDot(listing[pos]) then [] else [JoinPath(dir, listing[pos])])
  {
    EntriesGrow(listing, pos);
    if IsDot(listing[pos]) {
      assert Entries(listing[..pos + 1]) == Entries(listing[..pos]);
    } else {
      PathsAppend(dir, Entries(listing[..pos]), listing[pos]);
    }
  }

  lemma {:induction false} EntriesPrefix(listing: seq<Key>, pos: nat)
    requires pos <= |listing|
    ensures |Entries(listing[..pos])| <= |Entries(listing)|
    decreases |listing| - pos
  {
    if pos == |listing| {
      assert listing[..pos] == listing;
    } else {
      EntriesGrow(listing, pos);
      EntriesPrefix(listing, pos + 1);
    }
  }

  lemma PathsAppend(dir: Key, names: seq<Key>, name: Key)
    ensures Paths(dir, names + [name]) == Paths(dir, names) + [JoinPath(dir, name)]
  {
    assert (names + [name])[..|names|] == names;
  }

  /** Every name gets exactly its own path, in order. */
  lemma {:induction false} PathsLength(dir: Key, names: seq<Key>)
    ensures |Paths(dir, names)| == |names|
    ensures forall i :: 0 <= i < |names| ==> Paths(dir, names)[i] == dir + "/" + names[i]
  {
    if |names| > 0 {
      PathsLength(dir, names[..|names| - 1]);
    }
  }

  /** Strictly increasing ids. */
  predicate Increasing(s: seq<nat>) {
    forall i, j :: 0 <= i < j < |s| ==> s[i] < s[j]
  }

  /** The present ids are exactly the ids of present slots, each once, ascending. */
  lemma {:induction false} PresentIdsSpec<T>(slots: seq<Option<T>>)
    ensures Increasing(PresentIds(slots))
    ensures forall x: nat :: x in PresentIds(slots) <==> x < |slots| && slots[x].Some?
  {
    if |slots| > 0 {
      var init := slots[..|slots| - 1];
      PresentIdsSpec(init);
      var a := PresentIds(init);
      var last := if slots[|slots| - 1].Some? then [|slots| - 1] else [];
      assert PresentIds(slots) == a + last;
      forall x: nat
        ensures x in PresentIds(slots) <==> x < |slots| && slots[x].Some?
      {
        if x < |slots| - 1 {
          assert slots[x] == init[x];
        }
      }
      forall i, j | 0 <= i < j < |a + last|
        ensures (a + last)[i] < (a + last)[j]
      {
        if j >= |a| {
          assert (a + last)[i] == a[i];
          assert a[i] in a;
        }
      }
    }
  }

  /** An element of the flattened tasks is an element of one of them, and back. */
  lemma {:induction false} FlattenMember<T>(tasks: seq<seq<T>>, x: T)
    ensures x in Flatten(tasks) <==> exists m :: 0 <= m < |tasks| && x in tasks[m]
  {
    if |tasks| > 0 {
      var init := tasks[..|tasks| - 1];
      FlattenMember(init, x);
      if exists m :: 0 <= m < |init| && x in init[m] {
        var m :| 0 <= m < |init| && x in init[m];
        assert tasks[m] == init[m];
      }
      if exists m :: 0 <= m < |tasks| && x in tasks[m] {
        var m :| 0 <= m < |tasks| && x in tasks[m];
        if m < |init| {
          assert init[m] == tasks[m];
        }
      }
    }
  }

  /** When the flattened tasks increase, every task increases and lies wholly below the later ones. */
  lemma {:induction false} FlattenIncreasing(tasks: seq<seq<nat>>)
    requires Increasing(Flatten(tasks))
    ensures forall m :: 0 <= m < |tasks| ==> Increasing(tasks[m])
    ensures forall a, b, x: nat, y: nat :: 0 <= a < b < |tasks| && x in tasks[a] && y in tasks[b] ==> x < y
  {
    if |tasks| > 0 {
      var init := tasks[..|tasks| - 1];
      var last := tasks[|tasks| - 1];
      var f := Flatten(init);
      assert Flatten(tasks) == f + last;
      assert Increasing(f) by {
        assert forall i :: 0 <= i < |f| ==> (f + last)[i] == f[i];
      }
      assert Increasing(last) by {
        assert forall i :: 0 <= i < |last| ==> (f + last)[|f| + i] == last[i];
      }
      FlattenIncreasing(init);
      forall m | 0 <= m < |tasks|
        ensures Increasing(tasks[m])
      {
        if m < |init| {
          assert tasks[m] == init[m];
        }
      }
      forall a, b, x: nat, y: nat | 0 <= a < b < |tasks| && x in tasks[a] && y in tasks[b]
        ensures x < y
      {
        assert tasks[a] == init[a];
        if b < |init| {
          assert tasks[b] == init[b];
        } else {
          FlattenMember(init, x);
          assert x in f;
          ConcatIncreasing(f, last, x, y);
        }
      }
    }
  }

  /**
   * Reading of a reducer split whose tasks flatten to the present ids: every
   * present partition id goes to exactly one reducer, no absent id goes to
   * any, and each reducer gets its ids in increasing order.
   */
  lemma ReducerAssignment<T>(slots: seq<Option<T>>, tasks: seq<seq<nat>>)
    requires Flatten(tasks) == PresentIds(slots)
    ensures forall m, k :: 0 <= m < |tasks| && 0 <= k < |tasks[m]| ==> tasks[m][k] < |slots| && slots[tasks[m][k]].Some?
    ensures forall x: nat :: x < |slots| && slots[x].Some? ==> exists m :: 0 <= m < |tasks| && x in tasks[m]
    ensures forall a, b, x: nat :: 0 <= a < b < |tasks| && x in tasks[a] ==> x !in tasks[b]
    ensures forall m :: 0 <= m < |tasks| ==> Increasing(tasks[m])
  {
    AllAssignedPresent(slots, tasks);
    AllPresentAssigned(slots, tasks);
    assert Increasing(PresentIds(slots)) by {
      PresentIdsSpec(slots);
    }
    TasksOfIncreasing(tasks, PresentIds(slots));
  }

  lemma AllAssignedPresent<T>(slots: seq<Option<T>>, tasks: seq<seq<nat>>)
    requires Flatten(tasks) == PresentIds(slots)
    ensures forall m, k :: 0 <= m < |tasks| && 0 <= k < |tasks[m]| ==> tasks[m][k] < |slots| && slots[tasks[m][k]].Some?
  {
    forall m, k | 0 <= m < |tasks| && 0 <= k < |tasks[m]|
      ensures tasks[m][k] < |slots| && slots[tasks[m][k]].Some?
    {
      AssignedIsPresent(slots, tasks, m, tasks[m][k]);
    }
  }

  lemma AllPresentAssigned<T>(slots: seq<Option<T>>, tasks: seq<seq<nat>>)
    requires Flatten(tasks) == PresentIds(slots)
    ensures forall x: nat :: x < |slots| && slots[x].Some? ==> exists m :: 0 <= m < |tasks| && x in tasks[m]
  {
    forall x: nat | x < |slots| && slots[x].Some?
      ensures exists m :: 0 <= m < |tasks| && x in tasks[m]
    {
      PresentIsAssigned(slots, tasks, x);
    }
  }

  lemma AssignedIsPresent<T>(slots: seq<Option<T>>, tasks: seq<seq<nat>>, m: nat, x: nat)
    requires Flatten(tasks) == PresentIds(slots)
    requires m < |tasks| && x in tasks[m]
    ensures x < |slots| && slots[x].Some?
  {
    FlattenMember(tasks, x);
    assert x in PresentIds(slots);
    PresentIdsMember(slots, x);
  }

  lemma PresentIsAssigned<T>(slots: seq<Option<T>>, tasks: seq<seq<nat>>, x: nat)
    requires Flatten(tasks) == PresentIds(slots)
    requires x < |slots| && slots[x].Some?
    ensures exists m :: 0 <= m < |tasks| && x in tasks[m]
  {
    PresentIdsMember(slots, x);
    assert x in Flatten(tasks);
    FlattenMember(tasks, x);
  }

  /** One id is present in the list iff its slot is present. */
  lemma PresentIdsMember<T>(slots: seq<Option<T>>, x: nat)
    ensures x in PresentIds(slots) <==> x < |slots| && slots[x].Some?
  {
    PresentIdsSpec(slots);
  }

  /** Tasks that flatten to an increasing sequence are increasing and pairwise disjoint. */
  lemma TasksOfIncreasing(tasks: seq<seq<nat>>, ids: seq<nat>)
    requires Flatten(tasks) == ids && Increasing(ids)
    ensures forall a, b, x: nat :: 0 <= a < b < |tasks| && x in tasks[a] ==> x !in tasks[b]
    ensures forall m :: 0 <= m < |tasks| ==> Increasing(tasks[m])
  {
    FlattenIncreasing(tasks);
  }

  /** The entries are the listing's names other than `.` and `..`. */
  lemma {:induction false} EntriesSpec(listing: seq<Key>)
    ensures forall x :: x in Entries(listing) <==> x in listing && !IsDot(x)
  {
    if |listing| > 0 {
      var init := listing[..|listing| - 1];
      EntriesSpec(init);
      assert listing == init + [listing[|listing| - 1]];
    }
  }
}

=== FILE: table.dfy ===
/**
 * The partition table and `MR_Emit`.  The table holds one optional partition
 * per partition id; the user's partitioner picks the slot for every emitted
 * key, and the value that accompanies the key is dropped.
 */
module Table {
  import opened Wrappers
  import opened KeyOrder
  import opened CountTree
  import opened Partition

  type Table = seq<Option<Partition>>

  /** The user's partitioner: a key and the number of partitions give a partition id. */
  type Partitioner = (Key, nat) -> nat

  /** The table as the run starts: every slot absent. */
  function Empty(n: nat): (t: Table)
    ensures |t| == n
    ensures forall i :: 0 <= i < n ==> t[i].None?
  {
    seq(n, _ => None)
  }

  /** The occurrences held in one slot; nothing when it is absent. */
  function SlotBag(table: Table, i: nat): multiset<Key>
    requires i < |table|
  {
    if table[i].None? then multiset{} else Bag(table[i].value.root)
  }

  /** Every present slot is a well-formed partition. */
  ghost predicate Mapped(table: Table) {
    forall i :: 0 <= i < |table| && table[i].Some? ==> Mapping(table[i].value)
  }

  /** The partitioner sends every one of `keys` to a slot of the table. */
  predicate Routable(part: Partitioner, n: nat, keys: seq<Key>) {
    forall k :: k in keys ==> part(k, n) < n
  }

  /**
   * `MR_Emit(key, value)`: route the key through the partitioner and insert
   * one occurrence of it into that slot; no other slot changes.
   */
  function Emit(table: Table, part: Partitioner, key: Key): (t: Table)
    requires part(key, |table|) < |table| && Mapped(table)
    ensures |t| == |table| && Mapped(t)
    ensures forall i :: 0 <= i < |t| && i != part(key, |table|) ==> t[i] == table[i]
    ensures t[part(key, |table|)].Some?
    ensures SlotBag(t, part(key, |table|)) == SlotBag(table, part(key, |table|)) + multiset{key}
  {
    var i := part(key, |table|);
    InsertMapping(table[i], key);
    table[i := Some(Insert(table[i], key))]
  }

  /** A map phase: the keys emitted, one after another. */
  function EmitAll(table: Table, part: Partitioner, keys: seq<Key>): (t: Table)
    requires Routable(part, |table|, keys) && Mapped(table)
    ensures |t| == |table| && Mapped(t)
    decreases |keys|
  {
    if |keys| == 0 then table
    else
      assert forall k :: k in keys[1..] ==> k in keys;
      EmitAll(Emit(table, part, keys[0]), part, keys[1..])
  }

  /**
   * After a sequence of emissions, the count of `y` in slot `p` grew by the
   * number of times `y` was emitted if the partitioner sends `y` to `p`, and
   * not at all otherwise.
   */
  lemma {:induction false} EmitAllCounts(table: Table, part: Partitioner, keys: seq<Key>, p: nat, y: Key)
    requires Routable(part, |table|, keys) && Mapped(table) && p < |table|
    ensures SlotBag(EmitAll(table, part, keys), p)[y]
         == SlotBag(table, p)[y] + (if part(y, |table|) == p then multiset(keys)[y] else 0)
    decreases |keys|
  {
    if |keys| > 0 {
      var k, rest := keys[0], keys[1..];
      assert keys == [k] + rest;
      assert multiset(keys) == multiset{k} + multiset(rest);
      assert forall k' :: k' in rest ==> k' in keys;
      var next := Emit(table, part, k);
      assert EmitAll(table, part, keys) == EmitAll(next, part, rest);
      assert SlotBag(next, p) == SlotBag(table, p) + (if part(k, |table|) == p then multiset{k} else multiset{});
      EmitAllCounts(next, part, rest, p, y);
    }
  }

  /** Some key of `keys` is routed to slot `p`. */
  ghost predicate Hits(part: Partitioner, n: nat, keys: seq<Key>, p: nat) {
    exists i :: 0 <= i < |keys| && part(keys[i], n) == p
  }

  lemma HitsCons(part: Partitioner, n: nat, keys: seq<Key>, p: nat)
    requires |keys| > 0
    ensures Hits(part, n, keys, p) <==> part(keys[0], n) == p || Hits(part, n, keys[1..], p)
  {
    var rest := keys[1..];
    if Hits(part, n, rest, p) {
      var i :| 0 <= i < |rest| && part(rest[i], n) == p;
      assert keys[i + 1] == rest[i];
    }
    if Hits(part, n, keys, p) {
      var i :| 0 <= i < |keys| && part(keys[i], n) == p;
      if i > 0 {
        assert rest[i - 1] == keys[i];
      }
    }
  }

  /** A slot is present after the map phase iff it was before or some emitted key was routed to it. */
  lemma {:induction false} EmitAllPresence(table: Table, part: Partitioner, keys: seq<Key>, p: nat)
    requires Routable(part, |table|, keys) && Mapped(table) && p < |table|
    ensures EmitAll(table, part, keys)[p].Some? <==> table[p].Some? || Hits(part, |table|, keys, p)
    decreases |keys|
  {
    if |keys| > 0 {
      var rest := keys[1..];
      assert forall k' :: k' in rest ==> k' in keys;
      var next := Emit(table, part, keys[0]);
      assert EmitAll(table, part, keys) == EmitAll(next, part, rest);
      assert next[p].Some? <==> table[p].Some? || part(keys[0], |table|) == p;
      EmitAllPresence(next, part, rest, p);
      HitsCons(part, |table|, keys, p);
    }
  }

  /**
   * The emission order does not matter: two map phases that emit the same
   * keys the same number of times, in any order or split among mappers,
   * leave every slot with the same contents.
   */
  lemma EmitOrderIrrelevant(table: Table, part: Partitioner, keys1: seq<Key>, keys2: seq<Key>, p: nat)
    requires Routable(part, |table|, keys1) && Routable(part, |table|, keys2) && Mapped(table) && p < |table|
    requires multiset(keys1) == multiset(keys2)
    ensures SlotBag(EmitAll(table, part, keys1), p) == SlotBag(EmitAll(table, part, keys2), p)
  {
    forall y
      ensures SlotBag(EmitAll(table, part, keys1), p)[y] == SlotBag(EmitAll(table, part, keys2), p)[y]
    {
      EmitAllCounts(table, part, keys1, p, y);
      EmitAllCounts(table, part, keys2, p, y);
    }
  }
}

=== FILE: tree.dfy ===
/**
 * The per-partition counting search tree.  Every node holds one distinct key
 * and the number of times it has been emitted; the tree is a plain,
 * unbalanced binary search tree under `strcmp` order.  The C code links nodes
 * with parent/left/right pointers; here a tree is an immutable value and the
 * parent of a node is the node whose subtree it sits in.
 */
module CountTree {
  import opened Wrappers
  import opened KeyOrder

  datatype Tree = Nil | Node(left: Tree, key: Key, count: nat, right: Tree)

  /** One node seen from outside: its key and its count. */
  datatype Entry = Entry(key: Key, count: nat)

  function KeySet(t: Tree): set<Key> {
    match t
    case Nil => {}
    case Node(l, k, _, r) => KeySet(l) + {k} + KeySet(r)
  }

  /** The abstract contents: every key as many times as its count. */
  function Bag(t: Tree): multiset<Key> {
    match t
    case Nil => multiset{}
    case Node(l, k, c, r) => Bag(l) + multiset{}[k := c] + Bag(r)
  }

  /** The nodes in symmetric order; its length is the number of nodes. */
  function InOrder(t: Tree): seq<Entry> {
    match t
    case Nil => []
    case Node(l, k, c, r) => InOrder(l) + [Entry(k, c)] + InOrder(r)
  }

  /** The multiset of occurrences a sequence of entries stands for. */
  function BagOf(s: seq<Entry>): multiset<Key> {
    if |s| == 0 then multiset{}
    else multiset{}[s[0].key := s[0].count] + BagOf(s[1..])
  }

  /** Strict search-tree order: left keys below the node, right keys above it. */
  predicate Ordered(t: Tree) {
    match t
    case Nil => true
    case Node(l, k, _, r) =>
      && Ordered(l) && Ordered(r)
      && (forall y :: y in KeySet(l) ==> Less(y, k))
      && (forall y :: y in KeySet(r) ==> Less(k, y))
  }

  /** A node is removed when its count reaches zero, so every count is at least one. */
  predicate Positive(t: Tree) {
    match t
    case Nil => true
    case Node(l, _, c, r) => c >= 1 && Positive(l) && Positive(r)
  }

  predicate Valid(t: Tree) {
    Ordered(t) && Positive(t)
  }

  /** Keys strictly increasing along the sequence. */
  predicate Ascending(s: seq<Entry>) {
    forall i, j :: 0 <= i < j < |s| ==> Less(s[i].key, s[j].key)
  }

  /** `create_node`: a detached node for one occurrence of `k`. */
  function Leaf(k: Key): (t: Tree)
    ensures Valid(t)
    ensures Bag(t) == multiset{k}
    ensures InOrder(t) == [Entry(k, 1)]
  {
    Node(Nil, k, 1, Nil)
  }

  /**
   * The tree walk of `insert_node`: on a node with an equal key, count one
   * more occurrence; otherwise go left when the node's key is greater and
   * right when it is not; where the walk falls off the tree, attach a new
   * leaf there.
   */
  function Bump(t: Tree, k: Key): (r: Tree)
    ensures r.Node?
    ensures Bag(r) == Bag(t) + multiset{k}
    ensures KeySet(r) == KeySet(t) + {k}
  {
    match t
    case Nil => Leaf(k)
    case Node(l, x, c, rt) =>
      if StrCmp(x, k) == 0 then
        assert multiset{}[x := c + 1] == multiset{}[x := c] + multiset{k};
        Node(l, x, c + 1, rt)
      else if StrCmp(x, k) > 0 then Node(Bump(l, k), x, c, rt)
      else Node(l, x, c, Bump(rt, k))
  }

  /**
   * `freq->count++`: add one to the count of the node holding `k`, reached
   * through a pointer rather than a search.
   */
  function IncrementNode(t: Tree, k: Key): (r: Tree)
    ensures KeySet(r) == KeySet(t)
    ensures InOrder(r) == seq(|InOrder(t)|, i requires 0 <= i < |InOrder(t)| =>
      if InOrder(t)[i].key == k then Entry(k, InOrder(t)[i].count + 1) else InOrder(t)[i])
  {
    match t
    case Nil => Nil
    case Node(l, x, c, rt) =>
      Node(IncrementNode(l, k), x, if x == k then c + 1 else c, IncrementNode(rt, k))
  }

  /** Search for `k` and read the count of its node, 0 when there is none. */
  function Lookup(t: Tree, k: Key): nat {
    match t
    case Nil => 0
    case Node(l, x, c, r) =>
      if StrCmp(x, k) == 0 then c
      else if StrCmp(x, k) > 0 then Lookup(l, k)
      else Lookup(r, k)
  }

  /** The key reached by following left links from the root. */
  function Leftmost(t: Tree): (m: Option<Key>)
    ensures m.None? <==> t.Nil?
    ensures m.Some? ==> m.value in KeySet(t)
  {
    match t
    case Nil => None
    case Node(Nil, k, _, _) => Some(k)
    case Node(l, _, _, _) => Leftmost(l)
  }

  /** The entry left after one of its occurrences is consumed; none once its count reaches zero. */
  function Decrement(e: Entry): seq<Entry> {
    if e.count - 1 <= 0 then [] else [Entry(e.key, e.count - 1)]
  }

  /**
   * `get_next` after its key matched the cursor, on the whole tree: take one
   * occurrence of the leftmost key.  When its count reaches zero the node,
   * which has no left child, is unlinked: at the root (no parent) the root
   * becomes its right child and the search for the new cursor starts there.
   * Returns the new tree and the new cursor.
   */
  function Consume(t: Tree): (r: (Tree, Option<Key>))
    requires t.Node?
    ensures InOrder(r.0) == Decrement(InOrder(t)[0]) + InOrder(t)[1..]
    ensures r.1 == Leftmost(r.0)
  {
    if t.left.Nil? then
      if t.count - 1 <= 0 then (t.right, Leftmost(t.right))
      else (t.(count := t.count - 1), Some(t.key))
    else ConsumeBelow(t)
  }

  /**
   * The same step below a parent `p` whose left subtree holds the leftmost
   * node: when that node is unlinked, the parent's left link takes over its
   * right child and the search for the new cursor starts again at the parent.
   */
  function ConsumeBelow(p: Tree): (r: (Tree, Option<Key>))
    requires p.Node? && p.left.Node?
    ensures r.0.Node? && r.0.key == p.key && r.0.right == p.right
    ensures InOrder(r.0) == Decrement(InOrder(p)[0]) + InOrder(p)[1..]
    ensures r.1 == Leftmost(r.0)
    decreases p
  {
    var n := p.left;
    if n.left.Nil? then
      assert InOrder(n) == [Entry(n.key, n.count)] + InOrder(n.right);
      assert InOrder(p)[0] == Entry(n.key, n.count);
      assert InOrder(p)[1..] == InOrder(n.right) + [Entry(p.key, p.count)] + InOrder(p.right);
      if n.count - 1 <= 0 then
        var q := p.(left := n.right);
        (q, Leftmost(q))
      else
        (p.(left := n.(count := n.count - 1)), Some(n.key))
    else
      var (l', m) := ConsumeBelow(n);
      assert InOrder(p)[0] == InOrder(n)[0];
      assert InOrder(p)[1..] == InOrder(n)[1..] + [Entry(p.key, p.count)] + InOrder(p.right);
      (p.(left := l'), m)
  }

  /** Unlinking below a parent keeps the search-tree order and drops no other key. */
  lemma {:induction false} ConsumeBelowOrdered(p: Tree)
    requires p.Node? && p.left.Node? && Ordered(p)
    ensures KeySet(ConsumeBelow(p).0) <= KeySet(p)
    ensures Ordered(ConsumeBelow(p).0)
    decreases p
  {
    var n := p.left;
    if n.left.Nil? {
      if n.count - 1 > 0 {
        assert KeySet(n.(count := n.count - 1)) == KeySet(n);
      } else {
        assert KeySet(n.right) <= KeySet(n);
      }
    } else {
      ConsumeBelowOrdered(n);
    }
  }

  /**
   * One consumed occurrence keeps the tree a valid search tree and takes
   * exactly one occurrence of the minimum key out of its contents.
   */
  lemma ConsumeValid(t: Tree)
    requires t.Node? && Valid(t)
    ensures KeySet(Consume(t).0) <= KeySet(t)
    ensures Valid(Consume(t).0)
    ensures Bag(Consume(t).0) == Bag(t) - multiset{Leftmost(t).value}
  {
    var t' := Consume(t).0;
    if t.left.Nil? {
      if t.count - 1 > 0 {
        assert KeySet(t') == KeySet(t);
      }
    } else {
      ConsumeBelowOrdered(t);
    }
    ConsumePositive(t);
    ConsumeBag(t);
  }

  lemma ConsumePositive(t: Tree)
    requires t.Node? && Positive(t)
    ensures Positive(Consume(t).0)
  {
    var s := InOrder(t);
    assert s == [s[0]] + s[1..];
    PositiveInOrder(t);
    PositiveInOrder(Consume(t).0);
    AllPositiveConcat([s[0]], s[1..]);
    AllPositiveConcat(Decrement(s[0]), s[1..]);
  }

  lemma ConsumeBag(t: Tree)
    requires t.Node? && Positive(t)
    ensures Bag(Consume(t).0) == Bag(t) - multiset{Leftmost(t).value}
  {
    var t' := Consume(t).0;
    var s := InOrder(t);
    var e, rest := s[0], s[1..];
    assert s == [e] + rest;
    assert e.count >= 1 by {
      PositiveInOrder(t);
    }
    assert Leftmost(t).value == e.key by {
      LeftmostIsFirst(t);
    }
    var front := BagOf([e]);
    assert Bag(t) == front + BagOf(rest) by {
      BagOfInOrder(t);
      BagOfConcat([e], rest);
    }
    assert Bag(t') == BagOf(Decrement(e)) + BagOf(rest) by {
      BagOfInOrder(t');
      BagOfConcat(Decrement(e), rest);
    }
    DecrementBag(e);
    RemoveFromFront(front, BagOf(rest), e.key);
  }

  lemma RemoveFromFront(front: multiset<Key>, back: multiset<Key>, k: Key)
    requires k in front
    ensures (front - multiset{k}) + back == (front + back) - multiset{k}
  {
    assert forall y :: ((front - multiset{k}) + back)[y] == ((front + back) - multiset{k})[y];
  }

  lemma DecrementBag(e: Entry)
    requires e.count >= 1
    ensures BagOf(Decrement(e)) == BagOf([e]) - multiset{e.key}
    ensures e.key in BagOf([e])
  {
    assert BagOf([e]) == multiset{}[e.key := e.count];
    if e.count > 1 {
      assert BagOf(Decrement(e)) == multiset{}[e.key := e.count - 1];
    }
  }

  /** The descent `smallest = root; while (smallest->left) smallest = smallest->left;`. */
  method FindSmallest(t: Tree) returns (k: Key)
    requires t.Node?
    ensures Some(k) == Leftmost(t)
    ensures Ordered(t) ==> forall y :: y in KeySet(t) ==> y == k || Less(k, y)
  {
    var n := t;
    while n.left.Node?
      invariant n.Node? && Leftmost(n) == Leftmost(t)
      decreases n
    {
      n := n.left;
    }
    k := n.key;
    if Ordered(t) {
      LeftmostIsMinimum(t);
    }
  }

  // ---------------------------------------------------------------------------
  // Lemmas

  /** Only keys of nodes occur in the bag, and with positive counts every node's key does. */
  lemma {:induction false} BagKeys(t: Tree, y: Key)
    ensures y !in KeySet(t) ==> Bag(t)[y] == 0
    ensures Positive(t) && y in KeySet(t) ==> Bag(t)[y] > 0
  {
    match t
    case Nil =>
    case Node(l, _, _, r) =>
      BagKeys(l, y);
      BagKeys(r, y);
  }

  /** The walk keeps the search-tree order and positive counts. */
  lemma {:induction false} BumpValid(t: Tree, k: Key)
    requires Valid(t)
    ensures Valid(Bump(t, k))
  {
    match t
    case Nil =>
    case Node(l, x, c, r) =>
      LessTrichotomy(x, k);
      BumpValid(l, k);
      BumpValid(r, k);
  }

  /** A key already present gains no node; a new key gains exactly one. */
  lemma {:induction false} BumpNodes(t: Tree, k: Key)
    requires Ordered(t)
    ensures |InOrder(Bump(t, k))| == |InOrder(t)| + (if k in KeySet(t) then 0 else 1)
  {
    match t
    case Nil =>
    case Node(l, x, c, r) =>
      LessTrichotomy(x, k);
      if StrCmp(x, k) > 0 {
        if k in KeySet(r) { LessTransitive(x, k, x); LessTrichotomy(x, x); }
        BumpNodes(l, k);
      } else if StrCmp(x, k) < 0 {
        if k in KeySet(l) { LessTransitive(x, k, x); LessTrichotomy(x, x); }
        BumpNodes(r, k);
      }
  }

  /** Searching an ordered tree reads exactly the key's count. */
  lemma {:induction false} LookupIsCount(t: Tree, k: Key)
    requires Ordered(t)
    ensures Lookup(t, k) == Bag(t)[k]
  {
    match t
    case Nil =>
    case Node(l, x, c, r) =>
      LessTrichotomy(x, k);
      BagKeys(l, k);
      BagKeys(r, k);
      if StrCmp(x, k) > 0 {
        if k in KeySet(r) { LessTransitive(x, k, x); LessTrichotomy(x, x); }
        LookupIsCount(l, k);
      } else if StrCmp(x, k) < 0 {
        if k in KeySet(l) { LessTransitive(x, k, x); LessTrichotomy(x, x); }
        LookupIsCount(r, k);
      } else {
        if k in KeySet(l) { LessTrichotomy(k, k); }
        if k in KeySet(r) { LessTrichotomy(k, k); }
      }
  }

  /** The leftmost key of an ordered tree is its minimum. */
  lemma {:induction false} LeftmostIsMinimum(t: Tree)
    requires Ordered(t)
    ensures t.Node? ==> forall y :: y in KeySet(t) ==> y == Leftmost(t).value || Less(Leftmost(t).value, y)
  {
    match t
    case Nil =>
    case Node(Nil, k, _, r) =>
    case Node(l, k, _, r) =>
      LeftmostIsMinimum(l);
      var m := Leftmost(l).value;
      forall y | y in KeySet(r)
        ensures Less(m, y)
      {
        LessTransitive(m, k, y);
      }
  }

  /** The leftmost node is the first one in symmetric order. */
  lemma {:induction false} LeftmostIsFirst(t: Tree)
    ensures Leftmost(t) == if |InOrder(t)| == 0 then None else Some(InOrder(t)[0].key)
  {
    match t
    case Nil =>
    case Node(l, _, _, _) =>
      LeftmostIsFirst(l);
  }

  /** The keys of a sequence of entries. */
  function Keys(s: seq<Entry>): set<Key> {
    set e | e in s :: e.key
  }

  lemma KeysConcat(a: seq<Entry>, x: Entry, b: seq<Entry>)
    ensures Keys(a + [x] + b) == Keys(a) + {x.key} + Keys(b)
  {
    var s := a + [x] + b;
    forall y | y in Keys(s)
      ensures y in Keys(a) + {x.key} + Keys(b)
    {
      var e :| e in s && e.key == y;
    }
    forall y | y in Keys(a) + {x.key} + Keys(b)
      ensures y in Keys(s)
    {
      if y in Keys(a) {
        var e :| e in a && e.key == y;
        assert e in s;
      } else if y in Keys(b) {
        var e :| e in b && e.key == y;
        assert e in s;
      } else {
        assert x in s;
      }
    }
  }

  /** Symmetric order lists exactly the nodes' keys. */
  lemma {:induction false} InOrderKeys(t: Tree)
    ensures Keys(InOrder(t)) == KeySet(t)
  {
    match t
    case Nil =>
    case Node(l, k, c, r) =>
      InOrderKeys(l);
      InOrderKeys(r);
      KeysConcat(InOrder(l), Entry(k, c), InOrder(r));
  }

  /** An ordered tree lists its keys in strictly ascending order. */
  lemma {:induction false} InOrderAscending(t: Tree)
    requires Ordered(t)
    ensures Ascending(InOrder(t))
  {
    match t
    case Nil =>
    case Node(l, k, c, r) =>
      InOrderAscending(l);
      InOrderAscending(r);
      InOrderKeys(l);
      InOrderKeys(r);
      var a, b := InOrder(l), InOrder(r);
      var s := a + [Entry(k, c)] + b;
      forall i, j | 0 <= i < j < |s|
        ensures Less(s[i].key, s[j].key)
      {
        if j < |a| {
          assert s[i] == a[i] && s[j] == a[j];
        } else if i > |a| {
          assert s[i] == b[i - |a| - 1] && s[j] == b[j - |a| - 1];
        } else if i == |a| {
          assert s[j] == b[j - |a| - 1];
          assert b[j - |a| - 1] in b;
        } else if j == |a| {
          assert s[i] == a[i];
          assert a[i] in a;
        } else {
          assert s[i] == a[i] && s[j] == b[j - |a| - 1];
          assert a[i] in a && b[j - |a| - 1] in b;
          LessTransitive(a[i].key, k, b[j - |a| - 1].key);
        }
      }
  }

  lemma {:induction false} BagOfConcat(a: seq<Entry>, b: seq<Entry>)
    ensures BagOf(a + b) == BagOf(a) + BagOf(b)
  {
    if |a| > 0 {
      assert (a + b)[1..] == a[1..] + b;
      BagOfConcat(a[1..], b);
    } else {
      assert a + b == b;
    }
  }

  /** Replaying the nodes in symmetric order gives back the tree's contents. */
  lemma {:induction false} BagOfInOrder(t: Tree)
    ensures BagOf(InOrder(t)) == Bag(t)
  {
    match t
    case Nil =>
    case Node(l, k, c, r) =>
      BagOfInOrder(l);
      BagOfInOrder(r);
      BagOfConcat(InOrder(l) + [Entry(k, c)], InOrder(r));
      BagOfConcat(InOrder(l), [Entry(k, c)]);
      assert BagOf([Entry(k, c)]) == multiset{}[k := c];
  }

  /** Every listed entry has a count of at least one. */
  predicate AllPositive(s: seq<Entry>) {
    forall i :: 0 <= i < |s| ==> s[i].count >= 1
  }

  lemma AllPositiveConcat(a: seq<Entry>, b: seq<Entry>)
    ensures AllPositive(a + b) <==> AllPositive(a) && AllPositive(b)
  {
    if AllPositive(a) && AllPositive(b) {
      forall i | 0 <= i < |a + b|
        ensures (a + b)[i].count >= 1
      {
        if i >= |a| {
          assert (a + b)[i] == b[i - |a|];
        }
      }
    }
    if AllPositive(a + b) {
      assert forall i :: 0 <= i < |a| ==> (a + b)[i] == a[i];
      assert forall i :: 0 <= i < |b| ==> (a + b)[|a| + i] == b[i];
    }
  }

  /** A tree has positive counts exactly when every listed node does. */
  lemma {:induction false} PositiveInOrder(t: Tree)
    ensures Positive(t) <==> AllPositive(InOrder(t))
  {
    match t
    case Nil =>
    case Node(l, k, c, r) =>
      PositiveInOrder(l);
      PositiveInOrder(r);
      AllPositiveConcat(InOrder(l) + [Entry(k, c)], InOrder(r));
      AllPositiveConcat(InOrder(l), [Entry(k, c)]);
      assert AllPositive([Entry(k, c)]) <==> c >= 1 by {
        assert [Entry(k, c)][0] == Entry(k, c);
      }
  }

  /** Incrementing a key that no node holds changes nothing. */
  lemma {:induction false} IncrementAbsent(t: Tree, k: Key)
    requires k !in KeySet(t)
    ensures IncrementNode(t, k) == t
  {
    match t
    case Nil =>
    case Node(l, _, _, r) =>
      IncrementAbsent(l, k);
      IncrementAbsent(r, k);
  }

  /**
   * The shortcut and the walk agree: in an ordered tree that holds `k`,
   * bumping the node through the cached pointer gives the same tree as
   * searching for it.
   */
  lemma {:induction false} ShortcutAgreesWithWalk(t: Tree, k: Key)
    requires Ordered(t) && k in KeySet(t)
    ensures IncrementNode(t, k) == Bump(t, k)
  {
    match t
    case Node(l, x, c, r) =>
      LessTrichotomy(x, k);
      if StrCmp(x, k) == 0 {
        if k in KeySet(l) { LessTrichotomy(k, k); }
        if k in KeySet(r) { LessTrichotomy(k, k); }
        IncrementAbsent(l, k);
        IncrementAbsent(r, k);
      } else if StrCmp(x, k) > 0 {
        if k in KeySet(r) { LessTransitive(x, k, x); LessTrichotomy(x, x); }
        IncrementAbsent(r, k);
        ShortcutAgreesWithWalk(l, k);
      } else {
        if k in KeySet(l) { LessTransitive(x, k, x); LessTrichotomy(x, x); }
        IncrementAbsent(l, k);
        ShortcutAgreesWithWalk(r, k);
      }
  }
}

=== FILE: wrappers.dfy ===
/** The optional value that stands in for a C pointer that may be NULL. */
module Wrappers {

  datatype Option<+T> = None | Some(value: T)
}
